=== FILE: README.md ===
# Photo gallery lightbox — a Dafny model

This project models the lightbox view-state machine of the `Gallery` React
component of a single-page photo gallery. The component keeps three pieces of
state — the selected image, whether the lightbox overlay is open, and the zoom
level — and changes them only through its click handlers: open an image from
the grid, close the overlay, zoom in and out, step to the previous or next
image of the catalog, and download the shown image.

Each handler is a pure transition function over an immutable `State` and a
catalog `seq<Image>` that is passed in rather than hard-coded. The six sample
photographs the component ships with are the constant `Catalog.Sample`. The
modules are:

- `Wrappers`: the `Option` used for "no selection" (`null` / `undefined`).
- `Catalog`: the `Image` record, id uniqueness, `findIndex` by id, the
  JavaScript array read `images[i]`, and the sample catalog.
- `Zoom`: zoom arithmetic. The zoom is stored as an integer count of
  half-steps, `z2 = 2 * zoomLevel`, ranging over 1..6 (0.5x to 3x). Every value
  the component can reach is a multiple of 0.5, so this encoding is exact.
  `Zoom.EncodingMatchesFactor` ties it to the source's `Math.min`/`Math.max`
  over real numbers.
- `Navigation`: the circular index arithmetic of the previous/next buttons,
  including the `-1` that `findIndex` returns when the id is missing.
- `Gallery`: the state, the handlers, the download file name, the render
  guard (`lightboxOpen && selectedImage`), and the user actions as events. It
  also holds the invariant of reachable states and the navigation laws.

Behaviour of the code worth stating explicitly:

- `handleImageClick` sets only the selection and the open flag; it does not
  reset the zoom (src/components/Gallery.js:55-58). Reopening still shows
  100% in every reachable state, because zoom changes only while the overlay
  is shown and closing resets it (:60-64); `Gallery.ReopenShowsDefaultZoom`
  proves this.
- When the shown id is missing from the catalog (`findIndex` gives -1),
  previous goes to the last entry and next to the first (:76, :82);
  `Gallery.NavigationFallback` states this.
- On an empty catalog, previous reads `images[-1]` and next reads `images[0]`,
  both `undefined`, so navigation clears the selection and leaves
  `lightboxOpen` as it was. `Prev` and `Next` model this with `Catalog.At`.
  No reachable state meets this case: a selection is always a catalog entry
  (`Gallery.Inv`).

## Model

| member | source | states |
|---|---|---|
| `Catalog.FindIndexFrom` | src/components/Gallery.js:75 | the left-to-right scan of `findIndex` from a start position returns the first matching position at or after it, or -1 exactly when no later entry has the id |
| `Catalog.FindIndex` | src/components/Gallery.js:75 | `findIndex` by id returns -1 exactly when no entry has the id; otherwise it returns the first position with that id |
| `Catalog.FindIndexOfEntry` | src/components/Gallery.js:75 | when ids are unique, looking up the id of the entry at position k finds exactly k |
| `Catalog.At` | src/components/Gallery.js:77 | the array read `images[i]` yields an entry of the catalog exactly when i is in range, and `undefined` otherwise |
| `Catalog.SampleIsWellFormed` | src/components/Gallery.js:10-53 | the shipped catalog has six entries with ids 1..6 in order, so its ids are unique |
| `Zoom.In` | src/components/Gallery.js:66-68 | zoom-in yields the smaller of one half-step more and 3x |
| `Zoom.Out` | src/components/Gallery.js:70-72 | zoom-out yields the larger of one half-step less and 0.5x |
| `Zoom.EncodingMatchesFactor` | src/components/Gallery.js:66-72 | on the factor z2/2, the half-step operations are `Math.min(z + 0.5, 3)` and `Math.max(z - 0.5, 0.5)`, and 1, 6 and 2 half-steps are 0.5x, 3x and the initial 1x |
| `Zoom.StaysInRange` | src/components/Gallery.js:66-72 | from a zoom within [0.5x, 3x], zoom-in and zoom-out stay within it |
| `Zoom.IdempotentAtBounds` | src/components/Gallery.js:66-72 | zoom-in at 3x and zoom-out at 0.5x change nothing |
| `Zoom.InOutInverse` | src/components/Gallery.js:66-72 | away from the bound it moves towards, each zoom operation is undone by the other |
| `Zoom.InNClamps` | src/components/Gallery.js:66-68 | n zoom-ins from at most 3x give the smaller of z + n half-steps and 3x |
| `Zoom.OutNClamps` | src/components/Gallery.js:70-72 | n zoom-outs from at least 0.5x give the larger of z - n half-steps and 0.5x |
| `Zoom.FromDefault` | src/components/Gallery.js:66-72 | from 1x, three zoom-ins stay below 3x and the fourth reaches it; no number of zoom-ins exceeds 3x, and no number of zoom-outs goes below 0.5x |
| `Navigation.PrevIndex` | src/components/Gallery.js:76 | the previous index is i - 1 for i > 0, and the last index for 0 or for -1 (not found); it is in range for every valid i |
| `Navigation.NextIndex` | src/components/Gallery.js:82 | the next index is i + 1 below the last index, and 0 at the last index; it is in range for every valid i, and for -1 on a non-empty catalog |
| `Navigation.StepsAreModular` | src/components/Gallery.js:74-84 | on a valid index the two steps are (i - 1) mod n and (i + 1) mod n |
| `Navigation.Wraparound` | src/components/Gallery.js:74-84 | previous from the first index is the last index, and next from the last is the first |
| `Navigation.NotFoundFallback` | src/components/Gallery.js:74-84 | when `findIndex` gave -1, previous goes to the last index and next to the first |
| `Navigation.StepsInverse` | src/components/Gallery.js:74-84 | on valid indices, previous undoes next and next undoes previous |
| `Navigation.NextIndexN` | src/components/Gallery.js:82 | any number of next-steps from a valid index stays a valid index |
| `Navigation.NextIndexNModular` | src/components/Gallery.js:80-84 | m next-steps from a valid index i land on (i + m) mod n |
| `Gallery.GuardIsOpenFlag` | src/components/Gallery.js:136 | in every consistent state the render guard `lightboxOpen && selectedImage` holds exactly when the open flag is set |
| `Gallery.Open` | src/components/Gallery.js:55-58 | opening an image shows exactly that image with the overlay open, and leaves the zoom as it was |
| `Gallery.Close` | src/components/Gallery.js:60-64 | closing hides the overlay and clears the selection, and the zoom is 1x whatever it was before |
| `Gallery.ZoomIn` | src/components/Gallery.js:66-68 | zoom-in sets the zoom factor to `Math.min(z + 0.5, 3)`, changes neither the selection nor the open flag, and keeps the zoom within [0.5x, 3x] |
| `Gallery.ZoomOut` | src/components/Gallery.js:70-72 | zoom-out sets the zoom factor to `Math.max(z - 0.5, 0.5)`, changes neither the selection nor the open flag, and keeps the zoom within [0.5x, 3x] |
| `Gallery.Prev` | src/components/Gallery.js:74-78 | previous changes only the selection; the new selection is a catalog entry, and there is one exactly when the catalog is non-empty |
| `Gallery.Next` | src/components/Gallery.js:80-84 | next changes only the selection; the new selection is a catalog entry, and there is one exactly when the catalog is non-empty |
| `Gallery.DownloadName` | src/components/Gallery.js:103 | the saved file name is the image title followed by `.jpg` |
| `Gallery.DownloadNameByTitle` | src/components/Gallery.js:103 | two images get the same file name exactly when their titles are equal, whatever their ids, urls or formats |
| `Gallery.DownloadedName` | src/components/Gallery.js:168-173 | the download button saves the shown image under its title followed by `.jpg` |
| `Gallery.ControlsOnOffer` | src/components/Gallery.js:121-173 | a tile click is on offer exactly for the catalog positions, and the close, navigation, zoom and download buttons exactly while the overlay is shown |
| `Gallery.Step` | src/components/Gallery.js:136-173 | every action the rendered page offers keeps the consistency invariant, and the download button leaves the view-state unchanged |
| `Gallery.Run` | src/components/Gallery.js:5-84 | any sequence of offered actions from a consistent state ends in a consistent state |
| `Gallery.ReachableStatesAreConsistent` | src/components/Gallery.js:5-84 | every state reachable from mount satisfies the invariant: open exactly when an image is selected, closed at 1x, zoom within [0.5x, 3x], and the selection is a catalog entry |
| `Gallery.ReopenShowsDefaultZoom` | src/components/Gallery.js:55-64 | opening a tile from a closed, consistent state shows that image at 1x |
| `Gallery.NavigationSteps` | src/components/Gallery.js:74-84 | with unique ids, previous and next from entry k select the entries at (k - 1) mod n and (k + 1) mod n, and change nothing else |
| `Gallery.NavigationFallback` | src/components/Gallery.js:74-84 | when the shown id is absent from a non-empty catalog, previous selects the last entry and next the first |
| `Gallery.NavigationRoundTrip` | src/components/Gallery.js:74-84 | with unique ids, next then previous, and previous then next, restore the whole state for every catalog image |
| `Gallery.RoundTripNeedsUniqueIds` | src/components/Gallery.js:74-84 | with two entries sharing an id, next then previous from the first entry ends on the second entry |
| `Gallery.NextN` | src/components/Gallery.js:80-84 | repeated clicks on next on a non-empty catalog keep a selection and change neither the open flag nor the zoom |
| `Gallery.NextNFollowsIndex` | src/components/Gallery.js:80-84 | with unique ids, m clicks on next from entry k select the entry that m steps of the next-index arithmetic reach from k, and change nothing else |
| `Gallery.NextNCycles` | src/components/Gallery.js:80-84 | with unique ids, m clicks on next from entry k select the entry at (k + m) mod n |
| `Gallery.NextCatalogLengthIsIdentity` | src/components/Gallery.js:80-84 | with unique ids, clicking next once per catalog entry returns to the original state |
| `Gallery.SampleNavigationScenario` | src/components/Gallery.js:10-84 | on the sample catalog, opening id 3 and clicking next four times shows ids 4, 5, 6 and 1, and previous from id 1 shows id 6 |
| `Gallery.ZoomCloseReopenScenario` | src/components/Gallery.js:55-72 | opening a tile and zooming in twice gives 2x; closing and opening any tile gives 1x again |

## Left out

- src/App.js is not part of this model. It only composes the page header and the gallery.
- JSX rendering, CSS and the percentage label (src/components/Gallery.js:117-179) are left out. Tile clicks are enabled in every state, because whether the overlay covers the grid is decided by CSS.
- The body of `handleDownload` is left out, apart from the file name. This covers the `fetch`, the blob and object URL, the temporary link, the button label feedback, `alert` and `console.error`. All of these are browser I/O. Success and failure both leave the view-state unchanged, which `Gallery.Step` states.
- `zoomLevel` as a floating-point number is left out. The model uses exact half-steps, and `Zoom.EncodingMatchesFactor` relates them to real-valued factors.
- React's batching of state updates is left out. Each handler's updates are applied together as one transition.
- `Gallery.Prev` and `Gallery.Next` require a selection. In the component, reading `selectedImage.id` with no selection raises a `TypeError` (src/components/Gallery.js:75, :81). That case is unreachable from the page, because the buttons exist only under the guard at line 136, so the requirement holds at every call site and the error path is not modelled.
- Stale in-flight downloads are left out. They touch only the button label, never the view-state.

=== FILE: catalog.dfy ===
/** The image catalog: the record shape of one image, the ordered catalog the
    gallery renders, and the id lookup (`Array.prototype.findIndex`) that the
    navigation handlers use to locate the displayed image. */
module Catalog {
  import opened Wrappers

  /** One catalog entry. `date` is display-only text and is never parsed. */
  datatype Image = Image(id: int, url: string, title: string, description: string, date: string)

  /** True when no two catalog entries share an id. */
  predicate UniqueIds(cat: seq<Image>)
  {
    forall i, j :: 0 <= i < j < |cat| ==> cat[i].id != cat[j].id
  }

  /** True when some catalog entry carries the given id. */
  predicate HasId(cat: seq<Image>, id: int)
  {
    exists j :: 0 <= j < |cat| && cat[j].id == id
  }

  /** The left-to-right scan of `findIndex`, started at position `i`:
      the first position at or after `i` whose id matches, or -1. */
  function FindIndexFrom(cat: seq<Image>, id: int, i: nat): (r: int)
    requires i <= |cat|
    ensures r == -1 || i <= r < |cat|
    ensures r == -1 <==> forall j :: i <= j < |cat| ==> cat[j].id != id
    ensures r != -1 ==> cat[r].id == id && forall j :: i <= j < r ==> cat[j].id != id
    decreases |cat| - i
  {
    if i == |cat| then -1
    else if cat[i].id == id then i
    else FindIndexFrom(cat, id, i + 1)
  }

  /** `images.findIndex(img => img.id === id)`: the first position whose id
      matches, or -1 when there is none. */
  function FindIndex(cat: seq<Image>, id: int): (r: int)
    ensures -1 <= r < |cat|
    ensures r == -1 <==> !HasId(cat, id)
    ensures r != -1 ==> cat[r].id == id && forall j :: 0 <= j < r ==> cat[j].id != id
  {
    FindIndexFrom(cat, id, 0)
  }

  /** With unique ids, looking up the id of the entry at position `k` finds
      exactly position `k`. */
  lemma FindIndexOfEntry(cat: seq<Image>, k: int)
    requires UniqueIds(cat)
    requires 0 <= k < |cat|
    ensures FindIndex(cat, cat[k].id) == k
  {
    var r := FindIndex(cat, cat[k].id);
    assert HasId(cat, cat[k].id);
    if r < k {
      assert cat[r].id == cat[k].id;
    }
  }

  /** `images[i]` in JavaScript: the entry at `i`, or `undefined` (here None)
      when `i` is outside the array. */
  function At(cat: seq<Image>, i: int): (r: Option<Image>)
    ensures r.Some? <==> 0 <= i < |cat|
    ensures r.Some? ==> r.value in cat && r.value == cat[i]
  {
    if 0 <= i < |cat| then Some(cat[i]) else None
  }

  /** The six sample photographs the gallery ships with, in display order. */
  const Sample: seq<Image> := [
    Image(1, "https://picsum.photos/id/10/800/600", "Computer Setup",
          "Modern computer workspace with natural lighting", "2023-10-31"),
    Image(2, "https://picsum.photos/id/11/800/600", "Forest Lake",
          "Serene lake surrounded by mountains", "2023-10-30"),
    Image(3, "https://picsum.photos/id/12/800/600", "Mountain Valley",
          "Beautiful mountain landscape at sunset", "2023-10-29"),
    Image(4, "https://picsum.photos/id/13/800/600", "Desert Rocks",
          "Rocky desert landscape under blue sky", "2023-10-28"),
    Image(5, "https://picsum.photos/id/14/800/600", "Ocean View",
          "Peaceful ocean view with waves", "2023-10-27"),
    Image(6, "https://picsum.photos/id/15/800/600", "Forest Path",
          "Path through a dense forest", "2023-10-26")
  ]

  /** The sample catalog is non-empty, its ids are 1..6 in order, and so they
      are unique. */
  lemma SampleIsWellFormed()
    ensures |Sample| == 6
    ensures forall k :: 0 <= k < |Sample| ==> Sample[k].id == k + 1
    ensures UniqueIds(Sample)
  {
  }
}

=== FILE: gallery.dfy ===
/** The lightbox view-state machine of the `Gallery` component: the three
    pieces of state it keeps, one pure transition per event handler, the
    render guard that decides which controls exist, and the laws that hold
    of every state the user can reach from the initial one. */
module Gallery {
  import opened Wrappers
  import opened Catalog
  import opened Navigation
  import Zoom

  /** `selectedImage`, `lightboxOpen` and `zoomLevel`, the last as a count of
      half-steps (`z2 == 2 * zoomLevel`). The two flags are independent
      fields, as in the component; `Inv` below says how they stay in sync. */
  datatype State = State(selected: Option<Image>, lightboxOpen: bool, z2: int)

  /** The state on mount: nothing selected, closed, zoom 1x. */
  const Initial: State := State(None, false, Zoom.DefaultHalfSteps)

  /** The render guard `lightboxOpen && selectedImage`: the overlay, and with
      it the close, navigation, zoom and download buttons, exist only then. */
  predicate Shown(s: State)
  {
    s.lightboxOpen && s.selected.Some?
  }

  /** `handleImageClick(image)`: show `image`; the zoom is left as it is. */
  function Open(s: State, image: Image): (r: State)
    ensures Shown(r) && r.selected == Some(image)
    ensures r.z2 == s.z2
  {
    s.(selected := Some(image), lightboxOpen := true)
  }

  /** `handleCloseLightbox`: hide the overlay, drop the selection and reset the
      zoom to 1x, whatever it was. */
  function Close(s: State): (r: State)
    ensures !Shown(r) && !r.lightboxOpen && r.selected.None?
    ensures r.z2 == Zoom.DefaultHalfSteps
  {
    State(None, false, Zoom.DefaultHalfSteps)
  }

  /** `handleZoomIn`: one half-step in, clamped at 3x; nothing else changes. */
  function ZoomIn(s: State): (r: State)
    ensures r.selected == s.selected && r.lightboxOpen == s.lightboxOpen
    ensures s.z2 <= r.z2 <= Zoom.MaxHalfSteps || s.z2 > Zoom.MaxHalfSteps
    ensures Zoom.InRange(s.z2) ==> Zoom.InRange(r.z2)
    ensures Zoom.Factor(r.z2) == Zoom.MinReal(Zoom.Factor(s.z2) + 0.5, 3.0)
  {
    s.(z2 := Zoom.In(s.z2))
  }

  /** `handleZoomOut`: one half-step out, clamped at 0.5x; nothing else changes. */
  function ZoomOut(s: State): (r: State)
    ensures r.selected == s.selected && r.lightboxOpen == s.lightboxOpen
    ensures Zoom.MinHalfSteps <= r.z2 <= s.z2 || s.z2 < Zoom.MinHalfSteps
    ensures Zoom.InRange(s.z2) ==> Zoom.InRange(r.z2)
    ensures Zoom.Factor(r.z2) == Zoom.MaxReal(Zoom.Factor(s.z2) - 0.5, 0.5)
  {
    s.(z2 := Zoom.Out(s.z2))
  }

  /** `handlePrevImage`: locate the shown image by id and select the catalog
      entry before it, circularly. Reading `selectedImage.id` needs a
      selection. An out-of-range read (only on an empty catalog) yields
      no selection, as `images[-1]` is `undefined`. Only the selection changes. */
  function Prev(s: State, cat: seq<Image>): (r: State)
    requires s.selected.Some?
    ensures r.lightboxOpen == s.lightboxOpen && r.z2 == s.z2
    ensures r.selected.Some? <==> |cat| > 0
    ensures r.selected.Some? ==> r.selected.value in cat
  {
    var i := FindIndex(cat, s.selected.value.id);
    s.(selected := At(cat, PrevIndex(i, |cat|)))
  }

  /** `handleNextImage`: as `Prev`, selecting the entry after the shown one. */
  function Next(s: State, cat: seq<Image>): (r: State)
    requires s.selected.Some?
    ensures r.lightboxOpen == s.lightboxOpen && r.z2 == s.z2
    ensures r.selected.Some? <==> |cat| > 0
    ensures r.selected.Some? ==> r.selected.value in cat
  {
    var i := FindIndex(cat, s.selected.value.id);
    s.(selected := At(cat, NextIndex(i, |cat|)))
  }

  /** The file name `handleDownload` saves under: the title with a fixed
      `.jpg` extension, whatever the image's actual format. */
  function DownloadName(image: Image): (r: string)
    ensures |r| == |image.title| + 4
    ensures r[..|image.title|] == image.title
    ensures r[|image.title|..] == ".jpg"
  {
    image.title + ".jpg"
  }

  /** The file the download button saves: the button passes the shown image,
      so the name is that image's title with the `.jpg` extension. */
  function DownloadedName(s: State): (r: string)
    requires Shown(s)
    ensures var title := s.selected.value.title;
            |r| == |title| + 4 && r[..|title|] == title && r[|title|..] == ".jpg"
  {
    DownloadName(s.selected.value)
  }

  /** The file name depends on the title alone: two images get the same name
      exactly when their titles agree, whatever their ids, urls or formats. */
  lemma DownloadNameByTitle(a: Image, b: Image)
    ensures DownloadName(a) == DownloadName(b) <==> a.title == b.title
  {
    if DownloadName(a) == DownloadName(b) {
      assert |a.title| == |b.title|;
      assert a.title == DownloadName(a)[..|a.title|];
    }
  }

  /** The user's actions: a click on the `k`-th grid tile, or a click on one
      of the overlay's buttons. */
  datatype Event =
    | ClickTile(k: int)
    | ClickClose
    | ClickPrev
    | ClickNext
    | ClickZoomIn
    | ClickZoomOut
    | ClickDownload

  /** Which actions the rendered page offers: every tile of the grid, and the
      overlay's buttons only while the overlay is shown. */
  predicate Enabled(s: State, cat: seq<Image>, e: Event)
  {
    match e
    case ClickTile(k) => 0 <= k < |cat|
    case _ => Shown(s)
  }

  /** What the page offers, in both directions: the tile at position `k`
      exactly when `k` is a catalog position, and each overlay button exactly
      while the overlay is shown. */
  lemma ControlsOnOffer(s: State, cat: seq<Image>, e: Event)
    ensures e.ClickTile? ==> (Enabled(s, cat, e) <==> 0 <= e.k < |cat|)
    ensures !e.ClickTile? ==> (Enabled(s, cat, e) <==> s.lightboxOpen && s.selected.Some?)
  {
  }

  /** The consistency the handlers maintain together: the two flags agree, a
      closed lightbox sits at 1x, the zoom stays within [0.5x, 3x], and a
      selection is always an entry of the catalog. */
  predicate Inv(s: State, cat: seq<Image>)
  {
    && (s.lightboxOpen <==> s.selected.Some?)
    && Zoom.InRange(s.z2)
    && (!s.lightboxOpen ==> s.z2 == Zoom.DefaultHalfSteps)
    && (s.selected.Some? ==> s.selected.value in cat)
  }

  /** In a consistent state the two-part render guard is just the open flag:
      the overlay is shown exactly when `lightboxOpen` is set. */
  lemma GuardIsOpenFlag(s: State, cat: seq<Image>)
    requires Inv(s, cat)
    ensures Shown(s) <==> s.lightboxOpen
  {
  }

  /** One enabled action, dispatched to its handler. Every step keeps `Inv`,
      and the download button changes no view-state (its effect is the file
      named by `DownloadName`). */
  function Step(s: State, cat: seq<Image>, e: Event): (r: State)
    requires Enabled(s, cat, e)
    ensures Inv(s, cat) ==> Inv(r, cat)
    ensures e.ClickDownload? ==> r == s
  {
    match e
    case ClickTile(k) => Open(s, cat[k])
    case ClickClose => Close(s)
    case ClickPrev => Prev(s, cat)
    case ClickNext => Next(s, cat)
    case ClickZoomIn => ZoomIn(s)
    case ClickZoomOut => ZoomOut(s)
    case ClickDownload => s
  }

  /** The state after a sequence of actions, or None as soon as one of them
      is not on offer. */
  function Run(s: State, cat: seq<Image>, evs: seq<Event>): (r: Option<State>)
    ensures Inv(s, cat) && r.Some? ==> Inv(r.value, cat)
    decreases |evs|
  {
    if |evs| == 0 then Some(s)
    else if !Enabled(s, cat, evs[0]) then None
    else Run(Step(s, cat, evs[0]), cat, evs[1..])
  }

  /** Every state reachable from mount satisfies `Inv`. */
  lemma ReachableStatesAreConsistent(cat: seq<Image>, evs: seq<Event>)
    ensures Run(Initial, cat, evs).Some? ==> Inv(Run(Initial, cat, evs).value, cat)
  {
    assert Inv(Initial, cat);
  }

  /** Opening a tile from a closed, consistent state shows it at 1x: since
      zoom can only change while the overlay is shown and closing resets it,
      reopening any image starts at 100%. */
  lemma ReopenShowsDefaultZoom(s: State, cat: seq<Image>, k: int)
    requires Inv(s, cat) && !s.lightboxOpen
    requires 0 <= k < |cat|
    ensures Step(s, cat, ClickTile(k)) == State(Some(cat[k]), true, Zoom.DefaultHalfSteps)
  {
  }

  /** With unique ids and the shown image at position `k`, previous and next
      select the circular neighbours `(k - 1) mod n` and `(k + 1) mod n`. */
  lemma NavigationSteps(s: State, cat: seq<Image>, k: int)
    requires UniqueIds(cat)
    requires 0 <= k < |cat| && s.selected == Some(cat[k])
    ensures Prev(s, cat) == s.(selected := Some(cat[(k - 1) % |cat|]))
    ensures Next(s, cat) == s.(selected := Some(cat[(k + 1) % |cat|]))
  {
    FindIndexOfEntry(cat, k);
    StepsAreModular(k, |cat|);
  }

  /** When the shown image's id is absent from a non-empty catalog, previous
      falls back to the last entry and next to the first. */
  lemma NavigationFallback(s: State, cat: seq<Image>)
    requires s.selected.Some? && |cat| > 0
    requires !HasId(cat, s.selected.value.id)
    ensures Prev(s, cat).selected == Some(cat[|cat| - 1])
    ensures Next(s, cat).selected == Some(cat[0])
  {
  }

  /** Round trip: with unique ids, next then previous (and previous then
      next) restores the whole state for every catalog image. */
  lemma NavigationRoundTrip(s: State, cat: seq<Image>, k: int)
    requires UniqueIds(cat)
    requires 0 <= k < |cat| && s.selected == Some(cat[k])
    ensures Prev(Next(s, cat), cat) == s
    ensures Next(Prev(s, cat), cat) == s
  {
    var n := |cat|;
    FindIndexOfEntry(cat, k);
    StepsInverse(k, n);
    FindIndexOfEntry(cat, NextIndex(k, n));
    FindIndexOfEntry(cat, PrevIndex(k, n));
  }

  /** Without unique ids the round trip fails: two entries sharing an id make
      next-then-previous land on the second entry instead of the first. */
  lemma RoundTripNeedsUniqueIds()
    ensures var a := Image(1, "a", "A", "", "");
            var b := Image(1, "b", "B", "", "");
            var s := State(Some(a), true, Zoom.DefaultHalfSteps);
            Prev(Next(s, [a, b]), [a, b]).selected == Some(b) != s.selected
  {
    var a := Image(1, "a", "A", "", "");
    var b := Image(1, "b", "B", "", "");
    assert [a, b][0] == a;
  }

  /** `m` clicks on the next button. */
  function NextN(s: State, cat: seq<Image>, m: nat): (r: State)
    requires s.selected.Some? && |cat| > 0
    ensures r.selected.Some?
    ensures r.lightboxOpen == s.lightboxOpen && r.z2 == s.z2
  {
    if m == 0 then s else Next(NextN(s, cat, m - 1), cat)
  }

  /** With unique ids, `m` clicks on next from position `k` show the entry at
      `(k + m) mod n`, so `n` clicks bring back the original state. */
  lemma NextNCycles(s: State, cat: seq<Image>, k: int, m: nat)
    requires UniqueIds(cat)
    requires 0 <= k < |cat| && s.selected == Some(cat[k])
    ensures NextN(s, cat, m) == s.(selected := Some(cat[(k + m) % |cat|]))
  {
    NextNFollowsIndex(s, cat, k, m);
    NextIndexNModular(k, |cat|, m);
  }

  /** With unique ids, `m` clicks on next from position `k` show the entry at
      the position that `m` next-steps of the index arithmetic reach. */
  lemma {:induction false} NextNFollowsIndex(s: State, cat: seq<Image>, k: int, m: nat)
    requires UniqueIds(cat)
    requires 0 <= k < |cat| && s.selected == Some(cat[k])
    ensures NextN(s, cat, m) == s.(selected := Some(cat[NextIndexN(k, |cat|, m)]))
  {
    if m > 0 {
      NextNFollowsIndex(s, cat, k, m - 1);
      FindIndexOfEntry(cat, NextIndexN(k, |cat|, m - 1));
    }
  }

  /** Clicking next once per catalog entry is the identity. */
  lemma NextCatalogLengthIsIdentity(s: State, cat: seq<Image>, k: int)
    requires UniqueIds(cat)
    requires 0 <= k < |cat| && s.selected == Some(cat[k])
    ensures NextN(s, cat, |cat|) == s
  {
    NextNCycles(s, cat, k, |cat|);
    ModUnique(k + |cat|, |cat|, 1, k);
  }

  /** On the six sample photographs: open the third (id 3), click next four
      times (ids 4, 5, 6, then 1), then previous (back to id 6). */
  lemma SampleNavigationScenario()
    ensures var s := Open(Initial, Sample[2]);
            && NextN(s, Sample, 1).selected.value.id == 4
            && NextN(s, Sample, 2).selected.value.id == 5
            && NextN(s, Sample, 3).selected.value.id == 6
            && NextN(s, Sample, 4).selected.value.id == 1
            && Prev(NextN(s, Sample, 4), Sample).selected.value.id == 6
  {
    SampleIsWellFormed();
    var s := Open(Initial, Sample[2]);
    NextNCycles(s, Sample, 2, 1);
    NextNCycles(s, Sample, 2, 2);
    NextNCycles(s, Sample, 2, 3);
    NextNCycles(s, Sample, 2, 4);
    NavigationSteps(NextN(s, Sample, 4), Sample, 0);
  }

  /** Open any tile, zoom in twice (1x to 2x), close, and open any tile: the
      second image is shown at 1x again. */
  lemma ZoomCloseReopenScenario(cat: seq<Image>, k: int, j: int)
    requires 0 <= k < |cat| && 0 <= j < |cat|
    ensures Run(Initial, cat, [ClickTile(k), ClickZoomIn, ClickZoomIn])
            == Some(State(Some(cat[k]), true, 4))
    ensures Run(Initial, cat, [ClickTile(k), ClickZoomIn, ClickZoomIn, ClickClose, ClickTile(j)])
            == Some(State(Some(cat[j]), true, Zoom.DefaultHalfSteps))
  {
    var shown := State(Some(cat[k]), true, Zoom.DefaultHalfSteps);
    var zoomed := State(Some(cat[k]), true, 4);
    var closed := State(None, false, Zoom.DefaultHalfSteps);
    var reopened := State(Some(cat[j]), true, Zoom.DefaultHalfSteps);
    assert Run(reopened, cat, []) == Some(reopened);
    assert Run(closed, cat, [ClickTile(j)]) == Some(reopened);
    assert Run(zoomed, cat, [ClickClose, ClickTile(j)]) == Some(reopened);
    assert Run(zoomed, cat, []) == Some(zoomed);
    assert Run(shown.(z2 := 3), cat, [ClickZoomIn]) == Some(zoomed);
    assert [ClickZoomIn, ClickZoomIn, ClickClose, ClickTile(j)][1..]
           == [ClickZoomIn, ClickClose, ClickTile(j)];
    assert Run(shown.(z2 := 3), cat, [ClickZoomIn, ClickClose, ClickTile(j)]) == Some(reopened);
    assert Run(shown, cat, [ClickZoomIn, ClickZoomIn]) == Some(zoomed);
    assert Run(shown, cat, [ClickZoomIn, ClickZoomIn, ClickClose, ClickTile(j)]) == Some(reopened);
  }
}

=== FILE: navigation.dfy ===
/** Index arithmetic of the previous/next buttons. Both handlers take the
    position `i` that `findIndex` reported (possibly -1) and the catalog
    length `n`, and step circularly. */
module Navigation {

  /** `currentIndex > 0 ? currentIndex - 1 : images.length - 1` */
  function PrevIndex(i: int, n: int): (r: int)
    ensures 0 <= i < n ==> 0 <= r < n
    ensures i > 0 ==> r == i - 1
    ensures i <= 0 ==> r == n - 1
  {
    if i > 0 then i - 1 else n - 1
  }

  /** `currentIndex < images.length - 1 ? currentIndex + 1 : 0` */
  function NextIndex(i: int, n: int): (r: int)
    ensures -1 <= i < n ==> 0 <= r < n || n == 0
    ensures i < n - 1 ==> r == i + 1
    ensures i >= n - 1 ==> r == 0
  {
    if i < n - 1 then i + 1 else 0
  }

  /** On a valid position the two conditional expressions are the circular
      steps `(i - 1) mod n` and `(i + 1) mod n`. */
  lemma StepsAreModular(i: int, n: int)
    requires 0 <= i < n
    ensures PrevIndex(i, n) == (i - 1) % n
    ensures NextIndex(i, n) == (i + 1) % n
  {
    if i == 0 {
      assert (i - 1) % n == n - 1 by {
        assert -1 == (-1) * n + (n - 1);
      }
    }
    if i == n - 1 {
      assert (i + 1) % n == 0;
    }
  }

  /** Wraparound: the first position steps back to the last, the last steps
      forward to the first. */
  lemma Wraparound(n: int)
    requires n > 0
    ensures PrevIndex(0, n) == n - 1
    ensures NextIndex(n - 1, n) == 0
  {
  }

  /** The fallback when the id was not found (`findIndex` gave -1): previous
      goes to the last position and next to the first. */
  lemma NotFoundFallback(n: int)
    requires n > 0
    ensures PrevIndex(-1, n) == n - 1
    ensures NextIndex(-1, n) == 0
  {
  }

  /** On valid positions the two steps are inverse permutations. */
  lemma StepsInverse(i: int, n: int)
    requires 0 <= i < n
    ensures PrevIndex(NextIndex(i, n), n) == i
    ensures NextIndex(PrevIndex(i, n), n) == i
  {
  }

  /** `NextIndex` applied `m` times. */
  function NextIndexN(i: int, n: int, m: nat): (r: int)
    ensures 0 <= i < n ==> 0 <= r < n
  {
    if m == 0 then i else NextIndex(NextIndexN(i, n, m - 1), n)
  }

  /** Stepping forward `m` times from a valid position `i` lands on
      `(i + m) mod n`; in particular `n` steps come back to `i`. */
  lemma {:induction false} NextIndexNModular(i: int, n: int, m: nat)
    requires 0 <= i < n
    ensures NextIndexN(i, n, m) == (i + m) % n
  {
    if m > 0 {
      NextIndexNModular(i, n, m - 1);
      var j := (i + m - 1) % n;
      StepsAreModular(j, n);
      ModSucc(i + m - 1, n);
    }
  }

  /** `((x mod n) + 1) mod n == (x + 1) mod n` */
  lemma ModSucc(x: int, n: int)
    requires n > 0
    ensures ((x % n) + 1) % n == (x + 1) % n
  {
    var q := x / n;
    var j := x % n;
    if j + 1 < n {
      ModUnique(x + 1, n, q, j + 1);
    } else {
      ModUnique(x + 1, n, q + 1, 0);
    }
  }

  /** The remainder is determined by any quotient/remainder decomposition. */
  lemma ModUnique(x: int, n: int, q: int, r: int)
    requires n > 0 && 0 <= r < n
    requires x == q * n + r
    ensures x % n == r
  {
    var q', r' := x / n, x % n;
    assert (q - q') * n == r' - r;
    if q > q' {
      MulAtLeast(q - q', n);
    } else if q < q' {
      MulAtLeast(q' - q, n);
    }
  }

  lemma MulAtLeast(a: int, n: int)
    requires a >= 1 && n > 0
    ensures a * n >= n
  {
  }
}

=== FILE: wrappers.dfy ===
/** The optional value the gallery uses in place of JavaScript's `null` /
    `undefined` for "no image selected". */
module Wrappers {

  datatype Option<+T> = None | Some(value: T)
}

=== FILE: zoom.dfy ===
/** Zoom arithmetic. The source keeps `zoomLevel` as a JavaScript number that
    starts at 1 and moves in steps of 0.5 between 0.5 and 3; every value it
    can take is a multiple of 0.5, so the model counts half-steps instead:
    a zoom factor of `z2 / 2`. */
module Zoom {

  /** 0.5x, the lower clamp of zoom-out. */
  const MinHalfSteps: int := 1
  /** 3x, the upper clamp of zoom-in. */
  const MaxHalfSteps: int := 6
  /** 1x, the initial zoom and the zoom restored on close. */
  const DefaultHalfSteps: int := 2

  predicate InRange(z2: int)
  {
    MinHalfSteps <= z2 <= MaxHalfSteps
  }

  /** The zoom factor a half-step count stands for. */
  function Factor(z2: int): real
  {
    z2 as real / 2.0
  }

  /** `Math.min` and `Math.max` on the factor, as the handlers apply them. */
  function MinReal(a: real, b: real): real
  {
    if a <= b then a else b
  }

  function MaxReal(a: real, b: real): real
  {
    if a >= b then a else b
  }

  /** Zoom in by one half-step, clamped at 3x: the result is the smaller of
      `z2 + 1` and the maximum. */
  function In(z2: int): (r: int)
    ensures r <= MaxHalfSteps && r <= z2 + 1
    ensures r == MaxHalfSteps || r == z2 + 1
  {
    if z2 + 1 <= MaxHalfSteps then z2 + 1 else MaxHalfSteps
  }

  /** Zoom out by one half-step, clamped at 0.5x: the result is the larger of
      `z2 - 1` and the minimum. */
  function Out(z2: int): (r: int)
    ensures r >= MinHalfSteps && r >= z2 - 1
    ensures r == MinHalfSteps || r == z2 - 1
  {
    if z2 - 1 >= MinHalfSteps then z2 - 1 else MinHalfSteps
  }

  /** The half-step encoding is exact: zooming in on the count is the source's
      `Math.min(prev + 0.5, 3)` on the factor, and zooming out is
      `Math.max(prev - 0.5, 0.5)`. */
  lemma EncodingMatchesFactor(z2: int)
    ensures Factor(In(z2)) == MinReal(Factor(z2) + 0.5, 3.0)
    ensures Factor(Out(z2)) == MaxReal(Factor(z2) - 0.5, 0.5)
    ensures Factor(DefaultHalfSteps) == 1.0
    ensures Factor(MinHalfSteps) == 0.5 && Factor(MaxHalfSteps) == 3.0
  {
  }

  /** Both operations keep an in-range zoom in range. */
  lemma StaysInRange(z2: int)
    requires InRange(z2)
    ensures InRange(In(z2)) && InRange(Out(z2))
  {
  }

  /** Each operation is idempotent at its own bound. */
  lemma IdempotentAtBounds()
    ensures In(MaxHalfSteps) == MaxHalfSteps
    ensures Out(MinHalfSteps) == MinHalfSteps
  {
  }

  /** Away from the bounds, zoom-in and zoom-out undo each other. */
  lemma InOutInverse(z2: int)
    ensures MinHalfSteps <= z2 < MaxHalfSteps ==> Out(In(z2)) == z2
    ensures MinHalfSteps < z2 <= MaxHalfSteps ==> In(Out(z2)) == z2
  {
  }

  /** `n` consecutive zoom-ins. */
  function InN(z2: int, n: nat): int
  {
    if n == 0 then z2 else In(InN(z2, n - 1))
  }

  /** `n` consecutive zoom-outs. */
  function OutN(z2: int, n: nat): int
  {
    if n == 0 then z2 else Out(OutN(z2, n - 1))
  }

  /** From at most 3x, `n` zoom-ins land on the smaller of `z2 + n` and 3x. */
  lemma {:induction false} InNClamps(z2: int, n: nat)
    requires z2 <= MaxHalfSteps
    ensures InN(z2, n) == if z2 + n <= MaxHalfSteps then z2 + n else MaxHalfSteps
  {
    if n > 0 {
      InNClamps(z2, n - 1);
    }
  }

  /** From at least 0.5x, `n` zoom-outs land on the larger of `z2 - n` and 0.5x. */
  lemma {:induction false} OutNClamps(z2: int, n: nat)
    requires z2 >= MinHalfSteps
    ensures OutN(z2, n) == if z2 - n >= MinHalfSteps then z2 - n else MinHalfSteps
  {
    if n > 0 {
      OutNClamps(z2, n - 1);
    }
  }

  /** From 1x, the fourth zoom-in is the first to reach 3x, and no number of
      zoom-ins (ten, say) goes past it; no number of zoom-outs goes below 0.5x. */
  lemma FromDefault(n: nat)
    ensures InN(DefaultHalfSteps, 3) < MaxHalfSteps
    ensures InN(DefaultHalfSteps, 4) == MaxHalfSteps
    ensures InN(DefaultHalfSteps, n) <= MaxHalfSteps
    ensures OutN(DefaultHalfSteps, n) >= MinHalfSteps
  {
    InNClamps(DefaultHalfSteps, 3);
    InNClamps(DefaultHalfSteps, 4);
    InNClamps(DefaultHalfSteps, n);
    OutNClamps(DefaultHalfSteps, n);
  }
}
